=== FILE: README.md ===
# Obsidian MCP server: the tools' decision logic, in Dafny

The server exposes a note vault through tools. Each tool makes HTTP calls
to the Obsidian Local REST API (the "note API") or to the Omnisearch
service and maps the answers to a result. This project models what each
tool decides once the answers are known. The network is an input: a
tool gets the response it received, or an oracle function that gives a
response per request.

- `FindMatching` models `search_and_find_matching_file`. It runs one
  search. It stops on a search error and reports "no results" for an
  empty list. Otherwise it walks the hits in order. Hits without a path
  are skipped, and so are files answered with a status other than 200.
  The tool stops at the first file whose content contains the keyword.
  If no file matches, it reports "no match" and names the keyword. Any
  exception along the way aborts the tool with one error. The scan
  returns the outcome together with the list of paths it fetched. That
  list is what lets the contracts say "nothing after the match is
  fetched".
- `Adapters` models the single-call tools `get_status`, `omni_search`,
  `get_active_note`, `get_file` and `update_file`. It also holds the
  status contract they share: each tool has a set of success statuses.
  The set is {200}, or {200, 204} for `update_file`.
- `Omnisearch` models the Omnisearch client in main2.py: the tag-query
  builder, the `"result"`-or-empty unwrapping of RPC answers, and the
  all-or-nothing enrichment of search hits with file contents.
- `Http`, `Strings` and `Results` hold the shared vocabulary:
  - `Http`: responses, the `Accept` choice and status messages.
  - `Strings`: Python's `in` on strings, `str()` of an integer,
    `join` and `split`.
  - `Results`: the `Option` and `Result` types.

Two Python functions become parameters:
- `str()` of a decoded JSON note, which the scan matches against when
  `as_json` is set, becomes `repr`.
- `json.dumps`, which formats a tool's JSON result, becomes `dumps`.

The result messages use the same wording as the code, Japanese included.

Three points of the code's behaviour are easy to miss, and the model
keeps them as written:
- In the compound tool, a per-file fetch that raises (timeout, refused
  connection) aborts the whole tool. So does a 200 answer whose JSON note
  cannot be decoded. Only a non-200 status is skipped.
- The scan skips only entries whose `file.path` is missing, null, or
  any other falsy value (the empty string, 0, false, an empty list or
  object). The lookup `item.get("file", {}).get("path")` raises, and so
  aborts the tool, on an entry that is not an object and on an object
  whose `file` is present but is not an object, null included. The model
  has both cases as `Item.Malformed`.
- `update_file` returns its failures as plain strings, not as error
  objects. `Adapters.IsFailure` tells those strings apart from the
  confirmation by their wording.

## Model

| member | source | states |
|---|---|---|
| FindMatching.FindMatchingFile | main.py:171-182 | A search answered with a status other than 200 gives an error whose message contains the status code, with no file fetched. A search that raises, or whose body does not decode, gives an error, with no file fetched. "No results" happens exactly when the search succeeds with an empty list, and then nothing is fetched. |
| FindMatching.Candidate | main.py:187-189 | An item is fetched exactly when it is an object with a non-empty `file.path`, and the path fetched is that path. |
| FindMatching.StepOf | main.py:186-207 | One loop iteration. A candidate answered 200 with a usable body is a hit exactly when that body (the text, or `str()` of the note) contains the keyword, and the hit carries the fetched body. An item without a usable path is skipped. A fetch answered with a status other than 200 is skipped. Only an exception aborts: a malformed item, a failed transport, or an undecodable JSON note. |
| FindMatching.Scan | main.py:185-209 | The loop never produces "no results". The paths it fetches are a prefix of the candidates' paths in list order. A found file is the last one fetched, so nothing after the match is requested. |
| FindMatching.ScanIsFirstDecisiveStep | main.py:186-209 | The loop ends with the first item whose step is not a skip, having fetched exactly the candidates up to and including it. When every step is a skip, it ends with "no match" after fetching every candidate once, in order. |
| FindMatching.FoundIsFirstMatch | main.py:186-207 | The tool returns a file exactly when that file is the first item, in search order, whose step is a hit, and every earlier item was skipped. |
| FindMatching.NoMatchIffAllSkipped | main.py:186-209 | "No match" is returned exactly when every item is skipped. It then names the keyword, and every candidate was fetched once, in order. |
| FindMatching.ErrorIffFirstAbort | main.py:197-215 | The scan ends in an error exactly when the first decisive item raised, including during a per-file fetch. One exception ends the whole tool. |
| FindMatching.FindMatchingFileScansInOrder | main.py:180-209 | For a successful, non-empty search, the whole tool behaves as the scan: "no match" exactly when every item is skipped, and otherwise the first decisive item decides the outcome and the fetches. |
| FindMatching.RefusedFetchIsSkipped | main.py:197-207 | Example: the first file is answered 404 and the second contains the keyword. The tool returns the second file, having fetched both, in order. |
| FindMatching.NoMatchMessageInjective | main.py:209 | Two "no match" messages are equal only if they name the same keyword. |
| FindMatching.RenderIsInjective | main.py:178-209 | The dictionaries `FindMatching.Render` builds tell the four outcomes apart. In particular, the "no results" message is never a "no match" message. |
| Strings.Contains | main.py:203 | The executable substring test holds exactly when the keyword is a contiguous window of the text, as Python's `in` on strings. |
| Strings.IntToStringInjective | main.py:175 | Two status codes have the same decimal rendering exactly when they are equal. |
| Http.StatusMessage | main.py:56-57 | A rejected-status message starts with the tool's fixed wording and contains the status code. |
| Http.StatusMessageInjective | main.py:56-57 | Two rejected-status messages with the same fixed wording are equal only if they report the same code, so the message identifies the code. |
| Adapters.GetStatus | main.py:53-66 | The tool succeeds exactly when the status is 200 and the body decodes, and then returns `json.dumps` of the decoded body. Every other outcome is an error object. A rejected status's message contains the code. |
| Adapters.OmniSearch | main.py:83-97 | Same gate and the same `json.dumps` payload as `get_status`, except that failures are an error object wrapped in a list. |
| Adapters.GetActiveNote | main.py:232-250 | An error exactly when the call raises, the status is not 200, or a requested JSON body does not decode. A rejected status's message contains the code. Otherwise the tool returns the note when `as_json` is set, and the markdown text when it is not. |
| Adapters.GetFile | main.py:267-289 | Same gate as `get_active_note`. The status error also names the file's URL. An error raised by the call, or by decoding a requested JSON body, names the file. |
| Adapters.UpdateFile | main.py:303-321 | Every outcome is a string. A status outside {200, 204} gives a failure wording that contains the code. A status inside gives a confirmation that is not failure wording and names the file. A raised error has failure wording and names the file. |
| Adapters.UpdateConfirmation | main.py:316 | The confirmation string names the file and can never be read as a failure. |
| Adapters.StatusMapping | main.py:44-321 | The shared contract over all five tools. A status outside the tool's success set gives its failure shape, with the code in the message. A status inside gives success, unless a body the tool must decode does not decode. A call that raises always gives the failure shape. |
| Omnisearch.Unwrap | main2.py:44-51 | A call succeeds exactly when the answer has status 200 and decodes. It then returns the `"result"` value, or the given empty value when the key is missing. Any other status raises with a message that starts with the call's heading and contains the status code and the body text. |
| Omnisearch.Search | main2.py:20-51 | The search succeeds exactly when the answer has status 200 and decodes. It then returns the `"result"` value, or the empty list when the key is missing. Any other status raises with the code in the message. |
| Omnisearch.GetFileContent | main2.py:66-96 | The read succeeds exactly when the answer has status 200 and decodes. It then returns the `"result"` value, or the empty string when the key is missing. Any other status raises with the code in the message. |
| Omnisearch.TagQuery | main2.py:53-64 | The query that `search_by_tags` (modelled as `Omnisearch.SearchByTags`) sends is empty exactly when the tag list is empty. |
| Omnisearch.TagQueryRoundTrip | main2.py:63 | If no tag contains a space, splitting the query on spaces and removing the `tag:` marks gives back the tags, in order. |
| Omnisearch.EnrichHit | main2.py:131-139 | An entry is built exactly when the hit has `path`, `basename` and `score` and the content read succeeds. Its fields are the hit's fields, and its content is what was read for that same path. |
| Omnisearch.Enrich | main2.py:130-141 | The loop succeeds exactly when every hit enriches. The list then has the same length and order as the hits. |
| Omnisearch.EnrichFailsAtFirstBadHit | main2.py:131-138 | A failed enrichment reports the exception of the first hit that fails. Every earlier hit went through, and nothing is skipped. |
| Omnisearch.SearchAndExtractContent | main2.py:117-141 | A failed tag search is passed on unchanged. After a successful search the tool succeeds exactly when every hit can be enriched. Entry i then carries the path, basename and score of hit i and the content read for that path. |

## Left out

- HTTP itself is left out: the client, URLs of the search and status
  calls, the authorization and content-type headers, and the 10-second
  timeout. A timeout or refused connection appears only as a
  `TransportError` response. The only request detail kept is the
  per-file `Accept` choice (main.py:194).
- Tool registration with FastMCP, `ctx.error`, loguru logging and the
  `print` at main.py:86 are side effects with no effect on the result.
- Process setup is left out: the environment and `.env` configuration
  (main.py:17-21), and argument parsing and transport selection in
  `main()` (main.py:323-340).
- Python's `json.dumps` and `str()` of a JSON value are parameters of
  the model, not definitions.
- The disabled `search` tool (main.py:100-138) is not modelled. It is
  not registered.
- `refresh_index` (main2.py:98-114) and the demo `main()` (main2.py:144-158)
  are single calls with no further logic. The unused `TAG_PREFIX`
  constant (main2.py:6) is also left out.
- FindMatching.FindMatchingFile: the search body is taken to be a list of
  items. In the code, `if not results` would also report "no results" for
  other falsy JSON (`null`, `{}`, `""`, `0`), and truthy non-list bodies
  would be iterated in Python's own way. Neither is modelled.
- FindMatching.Candidate: a path is a string. A falsy non-string
  `file.path` (0, false, an empty list or object) is skipped like a
  missing one, so the model encodes it as `Entry(None)`. A truthy
  non-string `file.path` (a number, say) would be put into the URL by the
  code. It is not modelled.
- Omnisearch.Unwrap: an RPC answer is taken to be a JSON object whose
  `"result"` has the expected type. Answers of another shape are not
  modelled.
- Whether `update_file` overwrites rather than appends is up to the note
  API, not this code. The same holds for whether `get_file` with
  `as_json` carries front-matter metadata. Neither is modelled.

=== FILE: adapters.dfy ===
/** The single-call tools of main.py: each sends one request and maps the
    response, or the exception the call raised, to the tool's result. */
module Adapters {
  import opened Strings
  import opened Http

  /** What a tool hands back, by Python shape. */
  datatype ToolValue<+J> =
    | ErrorObject(error: string)   // {"error": message}
    | ErrorList(error: string)     // [{"error": message}]
    | Str(text: string)            // a plain string
    | Document(doc: J)             // a decoded JSON body

  /** `get_status`: `GET /` on the note API; the body pretty-printed by
      `dumps` (Python's `json.dumps`). */
  function GetStatus<J>(resp: Response<J>, dumps: J -> string): (v: ToolValue<J>)
    ensures v.Str? <==> resp.Reply? && resp.status == OK && resp.json.Parsed?
    ensures v.Str? ==> v.text == dumps(resp.json.value)
    ensures !v.Str? ==> v.ErrorObject?
    ensures resp.Reply? && resp.status != OK ==> Occurs(IntToString(resp.status), v.error)
  {
    match resp
    case TransportError(cause) => ErrorObject("Failed to get status: " + cause)
    case Reply(status, _, json) =>
      if status != OK then
        ErrorObject(StatusMessage("Error: Received status code ", status, " from Obsidian API."))
      else
        match json
        case Unparsable(reason) => ErrorObject("Failed to get status: " + reason)
        case Parsed(body) => Str(dumps(body))
  }

  /** `omni_search`: `GET /search?q=...` on the search service; failures
      come back wrapped in a one-element list. */
  function OmniSearch<J>(resp: Response<J>, dumps: J -> string): (v: ToolValue<J>)
    ensures v.Str? <==> resp.Reply? && resp.status == OK && resp.json.Parsed?
    ensures v.Str? ==> v.text == dumps(resp.json.value)
    ensures !v.Str? ==> v.ErrorList?
    ensures resp.Reply? && resp.status != OK ==> Occurs(IntToString(resp.status), v.error)
  {
    match resp
    case TransportError(cause) => ErrorList("Failed to perform Omni Search: " + cause)
    case Reply(status, _, json) =>
      if status != OK then
        ErrorList(StatusMessage("Error: Received status code ", status, " from Omni Search."))
      else
        match json
        case Unparsable(reason) => ErrorList("Failed to perform Omni Search: " + reason)
        case Parsed(body) => Str(dumps(body))
  }

  /** `get_active_note`: `GET /active`; the decoded note when `as_json`,
      else the markdown text. */
  function GetActiveNote<J>(resp: Response<J>, asJson: bool): (v: ToolValue<J>)
    ensures v.ErrorObject? <==>
      resp.TransportError? || resp.status != OK || (asJson && resp.json.Unparsable?)
    ensures resp.Reply? && resp.status != OK ==> Occurs(IntToString(resp.status), v.error)
    ensures v.Document? ==> asJson && resp.json == Parsed(v.doc)
    ensures v.Str? ==> !asJson && v.text == resp.text
    ensures !v.ErrorList?
  {
    match resp
    case TransportError(cause) => ErrorObject("Failed to retrieve active note: " + cause)
    case Reply(status, text, json) =>
      if status != OK then
        ErrorObject(StatusMessage("Error: Received status code ", status, " when retrieving active note."))
      else if !asJson then
        Str(text)
      else
        match json
        case Unparsable(reason) => ErrorObject("Failed to retrieve active note: " + reason)
        case Parsed(note) => Document(note)
  }

  /** The URL `get_file` and `update_file` address. */
  function VaultUrl(baseUrl: string, filename: string): string {
    baseUrl + "/vault/" + filename
  }

  /** `get_file`: `GET /vault/{filename}`; the status error names the URL. */
  function GetFile<J>(baseUrl: string, filename: string, asJson: bool, resp: Response<J>): (v: ToolValue<J>)
    ensures v.ErrorObject? <==>
      resp.TransportError? || resp.status != OK || (asJson && resp.json.Unparsable?)
    ensures resp.Reply? && resp.status != OK ==>
      Occurs(IntToString(resp.status), v.error) && Occurs(VaultUrl(baseUrl, filename), v.error)
    ensures resp.TransportError? ==> Occurs(filename, v.error)
    ensures resp.Reply? && resp.status == OK && asJson && resp.json.Unparsable? ==> Occurs(filename, v.error)
    ensures v.Document? ==> asJson && resp.json == Parsed(v.doc)
    ensures v.Str? ==> !asJson && v.text == resp.text
    ensures !v.ErrorList?
  {
    match resp
    case TransportError(cause) =>
      InfixOccurs("Failed to retrieve file '", filename, "': " + cause);
      assert "Failed to retrieve file '" + filename + ("': " + cause)
          == "Failed to retrieve file '" + filename + "': " + cause;
      ErrorObject("Failed to retrieve file '" + filename + "': " + cause)
    case Reply(status, text, json) =>
      if status != OK then
        var lead := "Error: Received status code " + IntToString(status) + " when retrieving file.\n url: ";
        InfixOccurs(lead, VaultUrl(baseUrl, filename), "");
        assert lead + VaultUrl(baseUrl, filename) + "" ==
               StatusMessage("Error: Received status code ", status,
                             " when retrieving file.\n url: " + VaultUrl(baseUrl, filename));
        ErrorObject(StatusMessage("Error: Received status code ", status,
                                  " when retrieving file.\n url: " + VaultUrl(baseUrl, filename)))
      else if !asJson then
        Str(text)
      else
        match json
        case Unparsable(reason) =>
          InfixOccurs("Failed to retrieve file '", filename, "': " + reason);
          assert "Failed to retrieve file '" + filename + ("': " + reason)
              == "Failed to retrieve file '" + filename + "': " + reason;
          ErrorObject("Failed to retrieve file '" + filename + "': " + reason)
        case Parsed(note) => Document(note)
  }

  const UPDATE_STATUS_PREFIX: string := "Error: Received status code "
  const UPDATE_FAILED_PREFIX: string := "Failed to update file '"

  /** `update_file`: `PUT /vault/{filename}` with the markdown as body. Both
      200 and 204 are success, and every outcome is a plain string. */
  function UpdateFile<J>(filename: string, resp: Response<J>): (v: ToolValue<J>)
    ensures v.Str?
    ensures resp.Reply? && resp.status !in {OK, NO_CONTENT} ==>
      IsUpdateFailureText(v.text) && Occurs(IntToString(resp.status), v.text)
    ensures resp.Reply? && resp.status in {OK, NO_CONTENT} ==>
      !IsUpdateFailureText(v.text) && Occurs(filename, v.text)
    ensures resp.TransportError? ==> IsUpdateFailureText(v.text) && Occurs(filename, v.text)
  {
    match resp
    case TransportError(cause) =>
      var msg := UPDATE_FAILED_PREFIX + filename + "': " + cause;
      assert msg[..7] == "Failed ";
      InfixOccurs(UPDATE_FAILED_PREFIX, filename, "': " + cause);
      assert UPDATE_FAILED_PREFIX + filename + ("': " + cause) == msg;
      Str(msg)
    case Reply(status, _, _) =>
      if status !in {OK, NO_CONTENT} then
        var msg := StatusMessage(UPDATE_STATUS_PREFIX, status, " when updating file.");
        assert msg[..7] == UPDATE_STATUS_PREFIX[..7];
        Str(msg)
      else
        UpdateConfirmation(filename);
        Str("File '" + filename + "' updated successfully.")
  }

  /** The wording that marks an `update_file` string as a failure. */
  predicate IsUpdateFailureText(s: string) {
    StartsWith(s, "Error: ") || StartsWith(s, "Failed ")
  }

  /** The confirmation is never mistaken for a failure, and it names the file. */
  lemma UpdateConfirmation(filename: string)
    ensures var msg := "File '" + filename + "' updated successfully.";
            !IsUpdateFailureText(msg) && Occurs(filename, msg)
  {
    var msg := "File '" + filename + "' updated successfully.";
    assert msg[..7][0] == 'F' && msg[..7][1] == 'i';
    InfixOccurs("File '", filename, "' updated successfully.");
  }

  // ---------------------------------------------------------------------
  // The status mapping the tools share.

  datatype Tool = GetStatusTool | OmniSearchTool | GetActiveNoteTool | GetFileTool | UpdateFileTool

  /** The statuses a tool accepts. */
  function SuccessCodes(tool: Tool): set<int> {
    if tool == UpdateFileTool then {OK, NO_CONTENT} else {OK}
  }

  /** Runs `tool` against the response it got. */
  function Invoke<J>(tool: Tool, baseUrl: string, filename: string, asJson: bool,
                     resp: Response<J>, dumps: J -> string): ToolValue<J>
  {
    match tool
    case GetStatusTool => GetStatus(resp, dumps)
    case OmniSearchTool => OmniSearch(resp, dumps)
    case GetActiveNoteTool => GetActiveNote(resp, asJson)
    case GetFileTool => GetFile(baseUrl, filename, asJson, resp)
    case UpdateFileTool => UpdateFile(filename, resp)
  }

  /** Whether a result is the tool's failure shape: an error object or
      list, except for `update_file`, whose failures are strings told
      apart from its confirmation only by their wording. */
  predicate IsFailure<J>(tool: Tool, v: ToolValue<J>) {
    if tool == UpdateFileTool then v.Str? && IsUpdateFailureText(v.text)
    else v.ErrorObject? || v.ErrorList?
  }

  function FailureText<J>(v: ToolValue<J>): string {
    match v
    case ErrorObject(e) => e
    case ErrorList(e) => e
    case Str(t) => t
    case Document(_) => ""
  }

  /** Whether the tool reads the body as JSON on success. */
  predicate ReadsJson(tool: Tool, asJson: bool) {
    || tool == GetStatusTool
    || tool == OmniSearchTool
    || (asJson && (tool == GetActiveNoteTool || tool == GetFileTool))
  }

  /** The shared status contract: a status outside the tool's success set
      gives a failure whose message contains the status code; a status
      inside it gives a success unless the body the tool must decode does
      not decode; a call that raises is always a failure. */
  lemma StatusMapping<J>(tool: Tool, baseUrl: string, filename: string, asJson: bool,
                         resp: Response<J>, dumps: J -> string)
    ensures var v := Invoke(tool, baseUrl, filename, asJson, resp, dumps);
            && (resp.TransportError? ==> IsFailure(tool, v))
            && (resp.Reply? && resp.status !in SuccessCodes(tool) ==>
                  IsFailure(tool, v) && Occurs(IntToString(resp.status), FailureText(v)))
            && (resp.Reply? && resp.status in SuccessCodes(tool) ==>
                  (IsFailure(tool, v) <==> ReadsJson(tool, asJson) && resp.json.Unparsable?))
  {
  }
}

=== FILE: find_matching.dfy ===
/** The tool `search_and_find_matching_file` (main.py): one search call on
    the note API, then a sequential scan of the hits, in the order the
    search returned them, that fetches each file and stops at the first
    whose content contains the keyword. */
module FindMatching {
  import opened Results
  import opened Strings
  import opened Http

  /** One element of the list the search endpoint returns. `Entry(path)` is
      an object whose `file` is missing or is an object, and `path` is its
      `file.path` (None when `file` is missing, or when `path` is missing,
      null or any other falsy value: the loop skips all of these alike).
      `Malformed(cause)` is an element on which
      `item.get("file", {}).get("path")` raises: an element that is not an
      object, or an object whose `file` is present but is not an object
      (null included). */
  datatype Item = Entry(path: Option<string>) | Malformed(cause: string)

  /** A fetched file body: the markdown text, or the decoded note document. */
  datatype Content<+J> = MarkdownText(text: string) | NoteDocument(note: J)

  /** The four terminal states of the tool. */
  datatype Outcome<+J> =
    | Error(message: string)
    | NoResults
    | Found(path: string, content: Content<J>)
    | NoMatch(keyword: string)

  /** An outcome together with the paths whose files were fetched on the
      way to it, in call order. */
  datatype Run<+J> = Run(outcome: Outcome<J>, fetched: seq<string>)

  /** Everything the scan loop consults besides the result list:
      `fetch` answers `GET /vault/{path}` with the given `Accept` header,
      `repr` is Python's `str()` of a decoded note (the text a structured
      body is matched against), `keyword` is `match_keyword`. */
  datatype Scanner<!J> = Scanner(
    fetch: (string, Accept) -> Response<J>,
    repr: J -> string,
    keyword: string,
    asJson: bool)

  const NO_RESULTS_MESSAGE: string := "検索結果がありませんでした。"

  const NO_MATCH_BEFORE: string := "指定されたキーワード '"
  const NO_MATCH_AFTER: string := "' を含むファイルは見つかりませんでした。"

  /** The message for a scan that found no file, naming the keyword. */
  function NoMatchMessage(keyword: string): string {
    NO_MATCH_BEFORE + keyword + NO_MATCH_AFTER
  }

  function SearchStatusMessage(status: int): string {
    StatusMessage("Search error: status code ", status, "")
  }

  /** The error reported when anything inside the tool raises. */
  function ExceptionMessage(cause: string): string {
    "search_and_find_matching_file エラー: " + cause
  }

  /** The path the loop goes on to fetch, if any: an item without a path,
      or with the empty path, is passed over (and a malformed one raises
      before its path is looked at). */
  function Candidate(item: Item): (p: Option<string>)
    ensures p.Some? ==> p.value != "" && item == Entry(p)
    // Every object with a non-empty `file.path` is fetched, at that path.
    ensures item.Entry? && item.path.Some? && item.path.value != "" ==> p == item.path
  {
    match item
    case Entry(Some(path)) => if path == "" then None else Some(path)
    case _ => None
  }

  /** The fetches an item can cause: one for a candidate, none otherwise. */
  function RequestOf(item: Item): seq<string> {
    match Candidate(item)
    case Some(p) => [p]
    case None => []
  }

  /** The paths of the candidates among `items`, in list order: the fetches
      the loop makes when it runs to the end. */
  function Requested(items: seq<Item>): seq<string>
    decreases |items|
  {
    if |items| == 0 then [] else RequestOf(items[0]) + Requested(items[1..])
  }

  /** The text a fetched body is searched in. */
  function Haystack<J>(c: Content<J>, repr: J -> string): string {
    match c
    case MarkdownText(text) => text
    case NoteDocument(note) => repr(note)
  }

  /** What one iteration of the loop does with one item: carry on to the
      next item, stop with the file, or abort the whole tool. */
  datatype Step<+J> = Skip | Hit(path: string, content: Content<J>) | Abort(cause: string)

  function StepOf<J>(item: Item, s: Scanner<J>): (r: Step<J>)
    // A hit is a candidate whose body contains the keyword.
    ensures r.Hit? ==>
      && Candidate(item) == Some(r.path)
      && Occurs(s.keyword, Haystack(r.content, s.repr))
    // A candidate answered 200 with a usable body is a hit exactly when the
    // body contains the keyword, and the hit carries that body.
    ensures (Candidate(item).Some? &&
             var resp := s.fetch(Candidate(item).value, AcceptFor(s.asJson));
             resp.Reply? && resp.status == OK && (s.asJson ==> resp.json.Parsed?)) ==>
      var resp := s.fetch(Candidate(item).value, AcceptFor(s.asJson));
      var body := if s.asJson then NoteDocument(resp.json.value) else MarkdownText(resp.text);
      && (r.Hit? <==> Occurs(s.keyword, Haystack(body, s.repr)))
      && (r.Hit? ==> r == Hit(Candidate(item).value, body))
    // Items without a usable path are skipped, never fetched.
    ensures item.Entry? && Candidate(item).None? ==> r.Skip?
    // A fetch answered with a status other than 200 is skipped, not fatal.
    ensures (Candidate(item).Some? &&
             var resp := s.fetch(Candidate(item).value, AcceptFor(s.asJson));
             resp.Reply? && resp.status != OK) ==> r.Skip?
    // Only an exception aborts: a malformed item, a failed transport, or an
    // undecodable structured body.
    ensures r.Abort? <==>
      || item.Malformed?
      || (Candidate(item).Some? &&
          var resp := s.fetch(Candidate(item).value, AcceptFor(s.asJson));
          || resp.TransportError?
          || (resp.status == OK && s.asJson && resp.json.Unparsable?))
  {
    match item
    case Malformed(cause) => Abort(cause)
    case Entry(path) =>
      if path.None? || path.value == "" then Skip
      else
        var p := path.value;
        match s.fetch(p, AcceptFor(s.asJson))
        case TransportError(cause) => Abort(cause)
        case Reply(status, text, json) =>
          if status != OK then Skip
          else if !s.asJson then
            (if Contains(text, s.keyword) then Hit(p, MarkdownText(text)) else Skip)
          else
            match json
            case Unparsable(reason) => Abort(reason)
            case Parsed(note) =>
              if Contains(s.repr(note), s.keyword) then Hit(p, NoteDocument(note)) else Skip
  }

  /** How the tool ends when the loop stops at a step that is not a skip. */
  function Conclude<J>(step: Step<J>, keyword: string): Outcome<J> {
    match step
    case Skip => NoMatch(keyword)
    case Hit(p, c) => Found(p, c)
    case Abort(cause) => Error(ExceptionMessage(cause))
  }

  /** The loop of main.py over the (non-empty) result list. */
  function Scan<J>(items: seq<Item>, s: Scanner<J>): (r: Run<J>)
    ensures !r.outcome.NoResults?
    // The fetches made are the candidates' paths in list order, cut short
    // when the loop stops.
    ensures r.fetched <= Requested(items)
    // A found file is the last one fetched: nothing after it is requested.
    ensures r.outcome.Found? ==> |r.fetched| > 0 && r.fetched[|r.fetched| - 1] == r.outcome.path
    decreases |items|
  {
    if |items| == 0 then Run(NoMatch(s.keyword), [])
    else
      var visited := RequestOf(items[0]);
      match StepOf(items[0], s)
      case Skip =>
        var rest := Scan(items[1..], s);
        Run(rest.outcome, visited + rest.fetched)
      case Hit(p, c) => Run(Found(p, c), visited)
      case Abort(cause) => Run(Error(ExceptionMessage(cause)), visited)
  }

  /** The whole tool, given the search endpoint's response. */
  function FindMatchingFile<J>(search: Response<seq<Item>>, s: Scanner<J>): (r: Run<J>)
    // A search answered with a status other than 200 is an error naming the
    // status, and no file is fetched.
    ensures search.Reply? && search.status != OK ==>
      r.outcome.Error? && Occurs(IntToString(search.status), r.outcome.message) && r.fetched == []
    // A search that raises, or whose body does not decode, is an error, and
    // no file is fetched.
    ensures search.TransportError? ==> r.outcome.Error? && r.fetched == []
    ensures search.Reply? && search.status == OK && search.json.Unparsable? ==>
      r.outcome.Error? && r.fetched == []
    // "No results" exactly when the search succeeded with the empty list,
    // and then nothing is fetched.
    ensures r.outcome.NoResults? <==> search.Reply? && search.status == OK && search.json == Parsed([])
    ensures r.outcome.NoResults? ==> r.fetched == []
  {
    match search
    case TransportError(cause) => Run(Error(ExceptionMessage(cause)), [])
    case Reply(status, _, json) =>
      if status != OK then Run(Error(SearchStatusMessage(status)), [])
      else
        match json
        case Unparsable(reason) => Run(Error(ExceptionMessage(reason)), [])
        case Parsed(items) =>
          if |items| == 0 then Run(NoResults, []) else Scan(items, s)
  }

  // ---------------------------------------------------------------------
  // The scan against a declarative description: the outcome is decided by
  // the first item whose step is not a skip.

  ghost predicate AllSkipped<J>(items: seq<Item>, s: Scanner<J>) {
    forall i :: 0 <= i < |items| ==> StepOf(items[i], s).Skip?
  }

  ghost predicate FirstDecisive<J>(items: seq<Item>, s: Scanner<J>, i: int) {
    && 0 <= i < |items|
    && !StepOf(items[i], s).Skip?
    && forall j :: 0 <= j < i ==> StepOf(items[j], s).Skip?
  }

  lemma RequestedOfPrefix(items: seq<Item>, i: int)
    requires 0 <= i < |items|
    ensures Requested(items[..i + 1]) == RequestOf(items[0]) + Requested(items[1..][..i])
  {
    assert items[..i + 1][0] == items[0];
    assert items[..i + 1][1..] == items[1..][..i];
  }

  /** The scan ends with the first decisive step, having fetched exactly the
      candidates up to and including it; when every step is a skip it ends
      with "no match" after fetching every candidate once, in order. */
  lemma {:induction false} ScanIsFirstDecisiveStep<J>(items: seq<Item>, s: Scanner<J>)
    ensures AllSkipped(items, s) ==> Scan(items, s) == Run(NoMatch(s.keyword), Requested(items))
    ensures forall i :: FirstDecisive(items, s, i) ==>
      Scan(items, s) == Run(Conclude(StepOf(items[i], s), s.keyword), Requested(items[..i + 1]))
    decreases |items|
  {
    if |items| > 0 {
      var rest := items[1..];
      ScanIsFirstDecisiveStep(rest, s);
      if StepOf(items[0], s).Skip? {
        if AllSkipped(items, s) {
          assert AllSkipped(rest, s) by {
            forall i | 0 <= i < |rest| ensures StepOf(rest[i], s).Skip? {
              assert rest[i] == items[i + 1];
            }
          }
        }
        forall i | FirstDecisive(items, s, i)
          ensures Scan(items, s) == Run(Conclude(StepOf(items[i], s), s.keyword), Requested(items[..i + 1]))
        {
          assert i > 0;
          assert FirstDecisive(rest, s, i - 1) by {
            assert rest[i - 1] == items[i];
            forall j | 0 <= j < i - 1 ensures StepOf(rest[j], s).Skip? {
              assert rest[j] == items[j + 1];
            }
          }
          RequestedOfPrefix(items, i);
          assert items[..i + 1][1..] == rest[..i - 1 + 1];
        }
      } else {
        forall i | FirstDecisive(items, s, i)
          ensures Scan(items, s) == Run(Conclude(StepOf(items[i], s), s.keyword), Requested(items[..i + 1]))
        {
          assert i == 0;
          RequestedOfPrefix(items, 0);
        }
      }
    }
  }

  /** Unless every step is a skip, some step is the first decisive one. */
  lemma FirstDecisiveExists<J>(items: seq<Item>, s: Scanner<J>)
    requires !AllSkipped(items, s)
    ensures exists i :: FirstDecisive(items, s, i)
  {
    var k :| 0 <= k < |items| && !StepOf(items[k], s).Skip?;
    var i := 0;
    while StepOf(items[i], s).Skip?
      invariant 0 <= i <= k
      invariant forall j :: 0 <= j < i ==> StepOf(items[j], s).Skip?
      decreases k - i
    {
      i := i + 1;
    }
    assert FirstDecisive(items, s, i);
  }

  /** The tool returns a file exactly when that file is the first item, in
      search order, whose step is a hit, every earlier item being skipped. */
  lemma {:induction false} FoundIsFirstMatch<J>(items: seq<Item>, s: Scanner<J>, p: string, c: Content<J>)
    ensures Scan(items, s).outcome == Found(p, c) <==>
      exists i :: FirstDecisive(items, s, i) && StepOf(items[i], s) == Hit(p, c)
  {
    ScanIsFirstDecisiveStep(items, s);
    if !AllSkipped(items, s) {
      FirstDecisiveExists(items, s);
    }
  }

  /** "No match" exactly when every item is skipped. */
  lemma {:induction false} NoMatchIffAllSkipped<J>(items: seq<Item>, s: Scanner<J>)
    ensures Scan(items, s).outcome.NoMatch? <==> AllSkipped(items, s)
    ensures Scan(items, s).outcome.NoMatch? ==>
      Scan(items, s) == Run(NoMatch(s.keyword), Requested(items))
  {
    ScanIsFirstDecisiveStep(items, s);
    if !AllSkipped(items, s) {
      FirstDecisiveExists(items, s);
    }
  }

  /** An error from the scan is exactly an exception at the first decisive
      item: one raise ends the whole tool. */
  lemma {:induction false} ErrorIffFirstAbort<J>(items: seq<Item>, s: Scanner<J>)
    ensures Scan(items, s).outcome.Error? <==>
      exists i :: FirstDecisive(items, s, i) && StepOf(items[i], s).Abort?
  {
    ScanIsFirstDecisiveStep(items, s);
    if !AllSkipped(items, s) {
      FirstDecisiveExists(items, s);
    }
  }

  /** Over a successful, non-empty search the tool is the scan: "no match"
      exactly when every item is skipped, after fetching every candidate
      once in order; otherwise the first decisive item decides. */
  lemma FindMatchingFileScansInOrder<J>(search: Response<seq<Item>>, s: Scanner<J>)
    requires search.Reply? && search.status == OK && search.json.Parsed? && |search.json.value| > 0
    ensures var items := search.json.value;
            var r := FindMatchingFile(search, s);
            && (r.outcome.NoMatch? <==> AllSkipped(items, s))
            && (r.outcome.NoMatch? ==> r == Run(NoMatch(s.keyword), Requested(items)))
            && (forall i :: FirstDecisive(items, s, i) ==>
                  r == Run(Conclude(StepOf(items[i], s), s.keyword), Requested(items[..i + 1])))
  {
    var items := search.json.value;
    ScanIsFirstDecisiveStep(items, s);
    NoMatchIffAllSkipped(items, s);
  }

  /** A candidate whose fetch is refused does not stop the scan: with a
      first file answered 404 and a second that contains the keyword, the
      tool returns the second, having fetched both in order. */
  lemma RefusedFetchIsSkipped()
    ensures
      var fetch := (p: string, a: Accept) =>
        if p == "a.md" then Reply(404, "", Unparsable("")) else Reply(200, "has kw", Unparsable(""));
      var s := Scanner(fetch, (n: int) => "", "kw", false);
      var search := Reply(200, "", Parsed([Entry(Some("a.md")), Entry(Some("b.md"))]));
      FindMatchingFile(search, s) == Run(Found("b.md", MarkdownText("has kw")), ["a.md", "b.md"])
  {
  }

  // ---------------------------------------------------------------------
  // What the tool hands back: a dictionary per outcome.

  /** `{"error": ...}`, `{"message": ...}` or `{"filename": ..., "content": ...}`. */
  datatype ToolReply<+J> =
    | ErrorDict(error: string)
    | MessageDict(message: string)
    | FileDict(filename: string, content: Content<J>)

  function Render<J>(o: Outcome<J>): ToolReply<J> {
    match o
    case Error(message) => ErrorDict(message)
    case NoResults => MessageDict(NO_RESULTS_MESSAGE)
    case Found(p, c) => FileDict(p, c)
    case NoMatch(keyword) => MessageDict(NoMatchMessage(keyword))
  }

  lemma NoMatchMessageInjective(k1: string, k2: string)
    ensures NoMatchMessage(k1) == NoMatchMessage(k2) ==> k1 == k2
  {
    if NoMatchMessage(k1) == NoMatchMessage(k2) {
      var n := |NO_MATCH_BEFORE|;
      assert |k1| == |k2|;
      assert NoMatchMessage(k1)[n..n + |k1|] == k1;
      assert NoMatchMessage(k2)[n..n + |k2|] == k2;
    }
  }

  /** The caller can tell every outcome from the reply alone: in particular
      "no results" and "no match" never produce the same message, and two
      "no match" replies name the same keyword only if they are the same. */
  lemma RenderIsInjective<J>(a: Outcome<J>, b: Outcome<J>)
    ensures Render(a) == Render(b) ==> a == b
  {
    if a.NoMatch? && b.NoMatch? {
      NoMatchMessageInjective(a.keyword, b.keyword);
    }
    if (a.NoMatch? && b.NoResults?) || (a.NoResults? && b.NoMatch?) {
      var k := if a.NoMatch? then a.keyword else b.keyword;
      assert NoMatchMessage(k)[0] == '指' != NO_RESULTS_MESSAGE[0];
    }
  }
}

=== FILE: http.dfy ===
/** One HTTP exchange as the tools see it. The network is not modelled:
    a tool receives the response the remote service gave (or an oracle
    that gives one per request) and only its reaction is modelled. */
module Http {
  import opened Strings

  /** The status every tool treats as success. */
  const OK: int := 200
  /** Also accepted by the file-update tool. */
  const NO_CONTENT: int := 204

  /** What `response.json()` gives: the decoded body, or the text of the
      decoding exception it raises. */
  datatype Decoded<+T> = Parsed(value: T) | Unparsable(reason: string)

  /** A call either raised inside the HTTP client (connection refused,
      timeout, ...) with the exception text `cause`, or produced a status,
      the body as text, and the body as JSON. */
  datatype Response<+T> =
    | TransportError(cause: string)
    | Reply(status: int, text: string, json: Decoded<T>)

  /** The `Accept` header a note fetch carries. */
  datatype Accept = Markdown | NoteJson

  /** `as_json` selects the structured note representation. */
  function AcceptFor(asJson: bool): (a: Accept)
    ensures a == NoteJson <==> asJson
  {
    if asJson then NoteJson else Markdown
  }

  /** The message a tool builds to report a rejected status: a fixed
      wording around `str(status)`. The code can always be found in it. */
  function StatusMessage(prefix: string, status: int, suffix: string): (msg: string)
    ensures StartsWith(msg, prefix)
    ensures Occurs(IntToString(status), msg)
  {
    InfixOccurs(prefix, IntToString(status), suffix);
    var msg := prefix + IntToString(status) + suffix;
    assert msg[..|prefix|] == prefix;
    msg
  }

  /** The fixed wording around the code loses nothing: two status messages
      with the same wording are equal only if they report the same code. */
  lemma StatusMessageInjective(prefix: string, a: int, b: int, suffix: string)
    ensures StatusMessage(prefix, a, suffix) == StatusMessage(prefix, b, suffix) ==> a == b
  {
    var sa, sb := IntToString(a), IntToString(b);
    if StatusMessage(prefix, a, suffix) == StatusMessage(prefix, b, suffix) {
      var n := |prefix|;
      assert |sa| == |sb|;
      assert StatusMessage(prefix, a, suffix)[n..n + |sa|] == sa;
      assert StatusMessage(prefix, b, suffix)[n..n + |sb|] == sb;
      IntToStringInjective(a, b);
    }
  }
}

=== FILE: omnisearch.dfy ===
/** The Omnisearch client of main2.py: RPC calls through an MCP endpoint,
    the tag-query builder, and the search-then-read enrichment. Each RPC
    is a `POST /messages` whose JSON body names a plugin method; its answer
    is given by an oracle from the invocation to the response. */
module Omnisearch {
  import opened Results
  import opened Strings
  import opened Http

  /** The `{"method": "invoke", "args": {...}}` body of an RPC. */
  datatype Invocation = Invocation(plugin: string, operation: string, args: seq<string>)

  /** The decoded RPC answer; `result` is None when the `"result"` key is
      missing (a present but null `"result"` is handed back as Python's
      None, which is outside the model). */
  datatype Envelope<+T> = Envelope(result: Option<T>)

  /** One search hit; each field is None when its key is missing (a key
      that is present but null is outside the model). */
  datatype Hit = Hit(path: Option<string>, basename: Option<string>, score: Option<real>)

  /** A hit together with the content of its file. */
  datatype Enriched = Enriched(path: string, basename: string, score: real, content: string)

  function SearchInvocation(query: string): Invocation {
    Invocation("omnisearch", "search", [query])
  }

  function ReadInvocation(path: string): Invocation {
    Invocation("app", "vault.read", [path])
  }

  /** The shared handling of an RPC answer: a 200 answer gives its
      `"result"` value, or `empty` when the key is missing; any other
      status raises with a message naming the status and the body text;
      a transport or decoding exception propagates as it is. */
  function Unwrap<T>(resp: Response<Envelope<T>>, empty: T, heading: string): (r: Result<T>)
    ensures r.Ok? <==> resp.Reply? && resp.status == OK && resp.json.Parsed?
    ensures r.Ok? ==> r.value == resp.json.value.result.ValueOr(empty)
    ensures resp.Reply? && resp.status != OK ==>
      StartsWith(r.message, heading) && Occurs(IntToString(resp.status), r.message) && Occurs(resp.text, r.message)
  {
    match resp
    case TransportError(cause) => Err(cause)
    case Reply(status, text, json) =>
      if status == OK then
        match json
        case Unparsable(reason) => Err(reason)
        case Parsed(envelope) => Ok(envelope.result.ValueOr(empty))
      else
        var msg := StatusMessage(heading + ": ", status, " - " + text);
        InfixOccurs(heading + ": " + IntToString(status) + " - ", text, "");
        assert msg == heading + ": " + IntToString(status) + " - " + text + "";
        assert msg[..|heading|] == (heading + ": ")[..|heading|];
        Err(msg)
  }

  /** `search(query)`: the hit list, empty when the answer has no result. */
  function Search(rpc: Invocation -> Response<Envelope<seq<Hit>>>, query: string): (r: Result<seq<Hit>>)
    ensures var resp := rpc(SearchInvocation(query));
            && (r.Ok? <==> resp.Reply? && resp.status == OK && resp.json.Parsed?)
            && (r.Ok? ==> r.value == resp.json.value.result.ValueOr([]))
            && (resp.Reply? && resp.status == OK && resp.json == Parsed(Envelope(None)) ==> r == Ok([]))
            && (resp.Reply? && resp.status != OK ==> r.Err? && Occurs(IntToString(resp.status), r.message))
  {
    Unwrap(rpc(SearchInvocation(query)), [], "検索エラー")
  }

  /** `get_file_content(path)`: the text, empty when the answer has no result. */
  function GetFileContent(rpc: Invocation -> Response<Envelope<string>>, path: string): (r: Result<string>)
    ensures var resp := rpc(ReadInvocation(path));
            && (r.Ok? <==> resp.Reply? && resp.status == OK && resp.json.Parsed?)
            && (r.Ok? ==> r.value == resp.json.value.result.ValueOr(""))
            && (resp.Reply? && resp.status == OK && resp.json == Parsed(Envelope(None)) ==> r == Ok(""))
            && (resp.Reply? && resp.status != OK ==> r.Err? && Occurs(IntToString(resp.status), r.message))
  {
    Unwrap(rpc(ReadInvocation(path)), "", "ファイル読み込みエラー")
  }

  const TAG_MARK: string := "tag:"

  /** Each tag with the `tag:` mark in front, in input order. */
  function TagTerms(tags: seq<string>): (terms: seq<string>)
    ensures |terms| == |tags|
    ensures forall i :: 0 <= i < |tags| ==> terms[i] == TAG_MARK + tags[i]
  {
    seq(|tags|, i requires 0 <= i < |tags| => TAG_MARK + tags[i])
  }

  /** The query `search_by_tags` sends: the marked tags joined by single spaces. */
  function TagQuery(tags: seq<string>): (q: string)
    ensures q == "" <==> tags == []
  {
    var terms := TagTerms(tags);
    assert |terms| > 0 ==> StartsWith(Join(" ", terms), terms[0]) && |terms[0]| > 0 by {
      if |terms| > 0 {
        JoinStartsWithFirst(" ", terms);
      }
    }
    Join(" ", terms)
  }

  lemma {:induction false} JoinStartsWithFirst(sep: string, parts: seq<string>)
    requires |parts| > 0
    ensures StartsWith(Join(sep, parts), parts[0])
  {
    var j := Join(sep, parts);
    if |parts| > 1 {
      assert j == parts[0] + (sep + Join(sep, parts[1..]));
    }
    assert j[..|parts[0]|] == parts[0];
  }

  /** Reads a tag query back into its tags: None unless every space-separated
      term carries the `tag:` mark. */
  function ParseTagQuery(q: string): Option<seq<string>> {
    if q == "" then Some([]) else StripMarks(Split(q, ' '))
  }

  function StripMarks(terms: seq<string>): Option<seq<string>>
    decreases |terms|
  {
    if |terms| == 0 then Some([])
    else if !StartsWith(terms[0], TAG_MARK) then None
    else
      match StripMarks(terms[1..])
      case None => None
      case Some(rest) => Some([terms[0][|TAG_MARK|..]] + rest)
  }

  lemma {:induction false} StripMarksOfTagTerms(tags: seq<string>)
    ensures StripMarks(TagTerms(tags)) == Some(tags)
    decreases |tags|
  {
    var terms := TagTerms(tags);
    if |tags| > 0 {
      assert terms[0][..|TAG_MARK|] == TAG_MARK;
      assert terms[0][|TAG_MARK|..] == tags[0];
      assert terms[1..] == TagTerms(tags[1..]);
      StripMarksOfTagTerms(tags[1..]);
      assert [tags[0]] + tags[1..] == tags;
    }
  }

  /** The tag query loses nothing: as long as no tag contains a space,
      the tags can be read back from it, in order. */
  lemma TagQueryRoundTrip(tags: seq<string>)
    requires forall i :: 0 <= i < |tags| ==> ' ' !in tags[i]
    ensures ParseTagQuery(TagQuery(tags)) == Some(tags)
  {
    var terms := TagTerms(tags);
    StripMarksOfTagTerms(tags);
    if |tags| > 0 {
      forall i | 0 <= i < |terms| ensures ' ' !in terms[i] {
        assert terms[i] == TAG_MARK + tags[i];
      }
      assert " " == [' '];
      SplitJoin(terms, ' ');
    }
  }

  /** `search_by_tags(tags)`. */
  function SearchByTags(rpc: Invocation -> Response<Envelope<seq<Hit>>>, tags: seq<string>): Result<seq<Hit>> {
    Search(rpc, TagQuery(tags))
  }

  /** The text of the `KeyError` a missing key raises. */
  function KeyErrorText(key: string): string {
    "'" + key + "'"
  }

  /** One iteration of the enrichment loop: read `path`, fetch the content,
      then read `basename` and `score`; any missing key or failed read raises. */
  function EnrichHit(hit: Hit, read: Invocation -> Response<Envelope<string>>): (r: Result<Enriched>)
    ensures r.Ok? <==>
      && hit.path.Some?
      && GetFileContent(read, hit.path.value).Ok?
      && hit.basename.Some?
      && hit.score.Some?
    ensures r.Ok? ==>
      && r.value.path == hit.path.value
      && r.value.basename == hit.basename.value
      && r.value.score == hit.score.value
      && GetFileContent(read, r.value.path) == Ok(r.value.content)
    // The keys and the read fail in the order the loop body meets them:
    // `path`, then the read, then `basename` and `score`.
    ensures hit.path.None? ==> r == Err(KeyErrorText("path"))
    ensures hit.path.Some? && GetFileContent(read, hit.path.value).Err? ==>
      r == Err(GetFileContent(read, hit.path.value).message)
    ensures hit.path.Some? && GetFileContent(read, hit.path.value).Ok? && hit.basename.None? ==>
      r == Err(KeyErrorText("basename"))
    ensures hit.path.Some? && GetFileContent(read, hit.path.value).Ok? && hit.basename.Some? && hit.score.None? ==>
      r == Err(KeyErrorText("score"))
  {
    match hit.path
    case None => Err(KeyErrorText("path"))
    case Some(path) =>
      match GetFileContent(read, path)
      case Err(e) => Err(e)
      case Ok(content) =>
        match hit.basename
        case None => Err(KeyErrorText("basename"))
        case Some(basename) =>
          match hit.score
          case None => Err(KeyErrorText("score"))
          case Some(score) => Ok(Enriched(path, basename, score, content))
  }

  /** The enrichment loop over the hits: all of them or nothing. */
  function Enrich(hits: seq<Hit>, read: Invocation -> Response<Envelope<string>>): (r: Result<seq<Enriched>>)
    ensures r.Ok? <==> forall i :: 0 <= i < |hits| ==> EnrichHit(hits[i], read).Ok?
    ensures r.Ok? ==> |r.value| == |hits|
    ensures r.Ok? ==> forall i :: 0 <= i < |hits| ==> r.value[i] == EnrichHit(hits[i], read).value
    decreases |hits|
  {
    if |hits| == 0 then Ok([])
    else
      match EnrichHit(hits[0], read)
      case Err(e) => Err(e)
      case Ok(first) =>
        match Enrich(hits[1..], read)
        case Err(e) => Err(e)
        case Ok(rest) =>
          assert forall i :: 1 <= i < |hits| ==> hits[i] == hits[1..][i - 1];
          Ok([first] + rest)
  }

  /** A failed enrichment reports the exception of the first hit that
      raises; every hit before it went through. */
  lemma {:induction false} EnrichFailsAtFirstBadHit(hits: seq<Hit>, read: Invocation -> Response<Envelope<string>>)
    requires Enrich(hits, read).Err?
    ensures exists i ::
              && 0 <= i < |hits|
              && (forall j :: 0 <= j < i ==> EnrichHit(hits[j], read).Ok?)
              && EnrichHit(hits[i], read) == Err(Enrich(hits, read).message)
    decreases |hits|
  {
    if EnrichHit(hits[0], read).Ok? {
      EnrichFailsAtFirstBadHit(hits[1..], read);
      var k :| 0 <= k < |hits[1..]|
        && (forall j :: 0 <= j < k ==> EnrichHit(hits[1..][j], read).Ok?)
        && EnrichHit(hits[1..][k], read) == Err(Enrich(hits[1..], read).message);
      assert forall j :: 0 <= j < k + 1 ==> EnrichHit(hits[j], read).Ok? by {
        forall j | 0 <= j < k + 1 ensures EnrichHit(hits[j], read).Ok? {
          if j > 0 {
            assert hits[j] == hits[1..][j - 1];
          }
        }
      }
      assert hits[k + 1] == hits[1..][k];
    } else {
      assert EnrichHit(hits[0], read) == Err(Enrich(hits, read).message);
    }
  }

  /** `search_and_extract_content(tags)`: search by tags, then enrich every
      hit in order. */
  function SearchAndExtractContent(search: Invocation -> Response<Envelope<seq<Hit>>>,
                                   read: Invocation -> Response<Envelope<string>>,
                                   tags: seq<string>): (r: Result<seq<Enriched>>)
    ensures SearchByTags(search, tags).Err? ==> r == Err(SearchByTags(search, tags).message)
    // After a successful search the result is all or nothing: it succeeds
    // exactly when every hit can be enriched.
    ensures SearchByTags(search, tags).Ok? ==>
      var hits := SearchByTags(search, tags).value;
      (r.Ok? <==> forall i :: 0 <= i < |hits| ==> EnrichHit(hits[i], read).Ok?)
    ensures r.Ok? ==>
      var hits := SearchByTags(search, tags).value;
      && SearchByTags(search, tags).Ok?
      && |r.value| == |hits|
      && forall i :: 0 <= i < |hits| ==>
           && hits[i].path == Some(r.value[i].path)
           && hits[i].basename == Some(r.value[i].basename)
           && hits[i].score == Some(r.value[i].score)
           && GetFileContent(read, r.value[i].path) == Ok(r.value[i].content)
  {
    match SearchByTags(search, tags)
    case Err(e) => Err(e)
    case Ok(hits) => Enrich(hits, read)
  }
}

=== FILE: results.dfy ===
/** Optional values and fallible results, the two wrappers every tool
    outcome in this model is built from. */
module Results {

  /** A value that may be absent; each use says what absence stands for. */
  datatype Option<+T> = None | Some(value: T) {

    /** The carried value, or `default` when there is none. */
    function ValueOr(default: T): T {
      match this
      case Some(v) => v
      case None => default
    }
  }

  /** The outcome of a call that can raise: `Err` carries the text Python's
      `str(e)` would give for the exception. */
  datatype Result<+T> = Ok(value: T) | Err(message: string)
}

=== FILE: strings.dfy ===
/** String operations the tools rely on, spelled out over `seq<char>`:
    Python's `in` on strings, `str()` of an integer, `sep.join(parts)`
    and `s.split(sep)` for a one-character separator. */
module Strings {
  import opened Results

  /** `needle in haystack` as Python defines it: the needle is a contiguous
      window of the haystack. The empty needle is in every string. */
  ghost predicate Occurs(needle: string, haystack: string) {
    exists i :: OccursAt(needle, haystack, i)
  }

  /** The needle is the window of the haystack that starts at index i. */
  predicate OccursAt(needle: string, haystack: string, i: int) {
    0 <= i && i + |needle| <= |haystack| && haystack[i..i + |needle|] == needle
  }

  predicate StartsWith(s: string, prefix: string) {
    |prefix| <= |s| && s[..|prefix|] == prefix
  }

  /** Dropping a first character that does not start a match loses no match. */
  lemma OccursPastHead(needle: string, haystack: string)
    requires |haystack| > 0 && !StartsWith(haystack, needle)
    ensures Occurs(needle, haystack) <==> Occurs(needle, haystack[1..])
  {
    var tail := haystack[1..];
    if |needle| <= |haystack| {
      assert haystack[0..|needle|] == haystack[..|needle|];
    }
    assert !OccursAt(needle, haystack, 0);
    if Occurs(needle, haystack) {
      var i :| OccursAt(needle, haystack, i);
      assert tail[i - 1..i - 1 + |needle|] == haystack[i..i + |needle|];
      assert OccursAt(needle, tail, i - 1);
    }
    if Occurs(needle, tail) {
      var j :| OccursAt(needle, tail, j);
      assert haystack[j + 1..j + 1 + |needle|] == tail[j..j + |needle|];
      assert OccursAt(needle, haystack, j + 1);
    }
  }

  /** Executable `needle in haystack`: try every start position from the left. */
  function Contains(haystack: string, needle: string): (b: bool)
    ensures b <==> Occurs(needle, haystack)
    decreases |haystack|
  {
    if StartsWith(haystack, needle) then
      assert haystack[0..|needle|] == haystack[..|needle|];
      assert OccursAt(needle, haystack, 0);
      true
    else if |haystack| == 0 then
      false
    else
      OccursPastHead(needle, haystack);
      Contains(haystack[1..], needle)
  }

  /** Whatever is glued around a string, the string still occurs in the result. */
  lemma InfixOccurs(before: string, middle: string, after: string)
    ensures Occurs(middle, before + middle + after)
  {
    var s := before + middle + after;
    assert s[|before|..|before| + |middle|] == middle;
    assert OccursAt(middle, s, |before|);
  }

  predicate IsDigit(c: char) {
    '0' <= c <= '9'
  }

  predicate AllDigits(s: string) {
    forall k :: 0 <= k < |s| ==> IsDigit(s[k])
  }

  function DigitChar(d: nat): (c: char)
    requires d < 10
    ensures IsDigit(c)
  {
    ('0' as int + d) as char
  }

  function DigitValue(c: char): (d: nat)
    requires IsDigit(c)
    ensures d < 10
  {
    c as int - '0' as int
  }

  /** Python's `str(n)` for n >= 0: decimal digits, most significant first. */
  function NatToString(n: nat): (s: string)
    ensures |s| > 0 && AllDigits(s)
    decreases n
  {
    if n < 10 then [DigitChar(n)] else NatToString(n / 10) + [DigitChar(n % 10)]
  }

  /** Python's `str(n)`, with a leading minus sign for negative n. */
  function IntToString(n: int): string {
    if n < 0 then "-" + NatToString(-n) else NatToString(n)
  }

  /** The number a run of decimal digits denotes. */
  function DigitsValue(s: string): nat
    requires AllDigits(s)
    decreases |s|
  {
    if |s| == 0 then 0 else DigitsValue(s[..|s| - 1]) * 10 + DigitValue(s[|s| - 1])
  }

  /** Reads back an optional minus sign followed by decimal digits; None
      otherwise. */
  function ParseInt(s: string): Option<int> {
    if |s| > 0 && s[0] == '-' then
      (if |s| > 1 && AllDigits(s[1..]) then Some(-(DigitsValue(s[1..]) as int)) else None)
    else if |s| > 0 && AllDigits(s) then Some(DigitsValue(s))
    else None
  }

  lemma {:induction false} NatToStringRoundTrip(n: nat)
    ensures DigitsValue(NatToString(n)) == n
    decreases n
  {
    var s := NatToString(n);
    if n < 10 {
      assert s[..|s| - 1] == [];
    } else {
      NatToStringRoundTrip(n / 10);
      assert s[..|s| - 1] == NatToString(n / 10);
    }
  }

  /** Reading back `str(n)` gives n: the decimal rendering loses nothing. */
  lemma IntToStringRoundTrip(n: int)
    ensures ParseInt(IntToString(n)) == Some(n)
  {
    if n < 0 {
      var s := IntToString(n);
      NatToStringRoundTrip(-n);
      assert s[1..] == NatToString(-n);
    } else {
      NatToStringRoundTrip(n);
      assert NatToString(n)[0] != '-' by {
        assert IsDigit(NatToString(n)[0]);
      }
    }
  }

  /** Two integers have the same decimal rendering exactly when they are equal. */
  lemma IntToStringInjective(a: int, b: int)
    ensures IntToString(a) == IntToString(b) <==> a == b
  {
    IntToStringRoundTrip(a);
    IntToStringRoundTrip(b);
  }

  /** Python's `sep.join(parts)`. */
  function Join(sep: string, parts: seq<string>): string
    decreases |parts|
  {
    if |parts| == 0 then ""
    else if |parts| == 1 then parts[0]
    else parts[0] + sep + Join(sep, parts[1..])
  }

  /** Python's `s.split(c)` for a one-character separator: the maximal pieces
      between separators, so there is always at least one (`"".split(c)`
      is `[""]`). */
  function Split(s: string, c: char): (parts: seq<string>)
    ensures |parts| > 0
    decreases |s|
  {
    if |s| == 0 then [""]
    else
      var rest := Split(s[1..], c);
      if s[0] == c then [""] + rest else [[s[0]] + rest[0]] + rest[1..]
  }

  lemma {:induction false} SplitWithoutSeparator(s: string, c: char)
    requires c !in s
    ensures Split(s, c) == [s]
    decreases |s|
  {
    if |s| > 0 {
      assert c !in s[1..] by {
        forall k | 0 <= k < |s[1..]| ensures s[1..][k] != c {
          assert s[1..][k] == s[k + 1];
        }
      }
      SplitWithoutSeparator(s[1..], c);
      assert [s[0]] + s[1..] == s;
    }
  }

  lemma {:induction false} SplitAtFirstSeparator(a: string, c: char, b: string)
    requires c !in a
    ensures Split(a + [c] + b, c) == [a] + Split(b, c)
    decreases |a|
  {
    var s := a + [c] + b;
    if |a| == 0 {
      assert s[1..] == b;
    } else {
      assert s[1..] == a[1..] + [c] + b;
      assert c !in a[1..] by {
        forall k | 0 <= k < |a[1..]| ensures a[1..][k] != c {
          assert a[1..][k] == a[k + 1];
        }
      }
      SplitAtFirstSeparator(a[1..], c, b);
      assert [a[0]] + a[1..] == a;
    }
  }

  /** Splitting a join on its own separator gives back the parts, provided
      no part contains the separator. */
  lemma {:induction false} SplitJoin(parts: seq<string>, c: char)
    requires |parts| > 0
    requires forall i :: 0 <= i < |parts| ==> c !in parts[i]
    ensures Split(Join([c], parts), c) == parts
    decreases |parts|
  {
    if |parts| == 1 {
      SplitWithoutSeparator(parts[0], c);
    } else {
      SplitJoin(parts[1..], c);
      SplitAtFirstSeparator(parts[0], c, Join([c], parts[1..]));
      assert [parts[0]] + parts[1..] == parts;
    }
  }
}
